=== FILE: README.md ===
# Account registry handlers — a Dafny model

This project models the decision logic of the account handlers of a Go/Gin
user-account backend: registration (`CreateUser` and `sign_up`), sign-in
(`Login` and `sign_in`), the token-gated `GetUser` and `UpdateProfile`, and
the `extractSocialURL` helper. Each handler becomes a pure function from a
store, a request and the results of the calls the model does not compute to a
response and the store the handler leaves behind.

The store (`Accounts.Store`) is an immutable value: the sequence of user
documents, the set of user ids owning a Socials row, the set owning a Contact
row, and the next id the store hands out. The store's existence checks and
its lookup by username are computed from that value. Every store call a
handler makes may also fail; a per-run set of failing calls (`fails`) says
which do. The password hasher, the two token makers and token verification
are function-valued fields of `Accounts.Services`, with no laws assumed of
them except where a lemma takes one as a hypothesis. The username-or-email
lookup used by both sign-in handlers is a parameter too, since the store code
behind it is not part of this model.

Modules follow the program: `UserStore` (store queries and writes, and the
well-formedness they should keep), `Registration` (createUser.go's
`CreateUser` and authentication_api.go's `sign_up`), `SignIn` (`Login`,
`sign_in`), `Profile` (`GetUser`, `UpdateProfile`), `Socials`
(`extractSocialURL`) and `Sequential` (any sequence of handler runs).

Behaviour of the code worth knowing:
- `CreateUser` stores the request password as given, with no hashing. Only `sign_up` hashes.
- Neither registration handler maps a duplicate-key error from the insertion to the duplicate message. An insertion failure is a 500.
- `sign_in` passes a lookup error's own status and message through. It does not turn a missing user into an authentication failure.
- `sign_up` answers with the local user record, and that record includes the password hash.

## Model

| member | source | states |
|---|---|---|
| UserStore.FindIndex | backend/db/store.go:15 | the position found holds the username, and no earlier user has it; no position means no user has it |
| UserStore.FindByUsername | backend/db/store.go:15 | a user is found exactly when one with that username is stored, and it is a stored user with that username |
| UserStore.FindByUsernameUnique | backend/db/store.go:15 | with unique usernames the lookup returns exactly the user holding the username |
| UserStore.FindCall | backend/router/createUser.go:163-168 | a user is returned iff the call does not fail and the username is stored, and it is a stored user with that username |
| UserStore.InsertKeepsWellFormed | backend/router/createUser.go:40-48 | inserting a user whose email and username are both free keeps ids distinct and identities unique; the new id is unused |
| UserStore.ReplaceKeepsWellFormed | backend/router/createUser.go:202-215 | replacing a record by one with the same id keeps the store well formed if each of its username and email is unchanged or free |
| Registration.Admit | backend/router/createUser.go:20-38 | admitted iff both checks succeed and both identities are free; a failed email check is the answer whatever the username; a taken email wins over a taken username; a failed username check is the answer once the email is checked free; a username duplicate only when the email is free |
| Registration.Persist | backend/router/createUser.go:48-70 | user, then Socials, then Contact for the returned id; the first failing write is the one reported, the later writes are skipped and the earlier writes stay |
| Registration.CreateUser | backend/router/createUser.go:13-91 | bind failure 400; duplicate email 200 before username; a failed existence check, a failed write, a failed token and a failed final lookup are each a 500 naming the call; a 200 is the session or a duplicate message that wrote nothing; once the three writes succeed the user and both rows stay, whatever the token and the final lookup do; store unchanged unless both checks pass; the one write is the request's user with the raw password; success carries the new user and the token for it |
| Registration.SignUp | backend/router/authentication_api.go:12-89 | the same check order, the same 500 for a failed check, a failed write or a failed token, and the same two kinds of 200; once the three writes succeed the hashed user and both rows stay, whatever the token does; hashing after the checks and before any write, failing with 500 and no write; the stored password is the hash of the request password |
| Registration.CreateUserNoRollback | backend/router/createUser.go:48-70 | a failed Socials write leaves the user with no Socials or Contact row; a failed Contact write leaves it with Socials only |
| Registration.SignUpNoRollback | backend/router/authentication_api.go:53-75 | the same absence of rollback for sign_up, with the hash stored |
| Registration.CreateUserKeepsWellFormed | backend/router/createUser.go:20-70 | every CreateUser run, successful or not, keeps usernames and emails unique |
| Registration.SignUpKeepsWellFormed | backend/router/authentication_api.go:19-75 | every sign_up run keeps usernames and emails unique |
| Registration.SecondRegistrationIsDuplicate | backend/router/createUser.go:20-28 | once a user was written, registering its email again gets the duplicate message and writes nothing, whatever the username |
| Registration.CreateUserSucceeds | backend/router/createUser.go:20-91 | with both identities free and no call failing, CreateUser answers 200 with the token minted for the new id and the stored record, and the store gains the user with its Socials and Contact rows |
| Registration.SignUpSucceeds | backend/router/authentication_api.go:19-89 | with both identities free, the hash computed and no write failing, sign_up answers 200 with the new token and the record holding the hash, and the store gains it with both rows |
| Registration.FreshUserFound | backend/router/createUser.go:79-84 | after inserting a user with a free username, the lookup by that username returns the inserted record |
| SignIn.Login | backend/router/createUser.go:116-148 | never writes; bind 400; a lookup error with a status keeps its status and message, any other is a 500; after an accepted lookup a failed token is 500 "Failed to generate token" and a failed second lookup by the identifier is a 500; a session only after a successful lookup, carrying the token for the looked-up user and a stored user whose username is the request identifier |
| SignIn.LoginFixed | backend/router/createUser.go:134-147 | never writes; lookup errors mapped as in Login; the same two late 500s, the second lookup keyed by the looked-up user's username; a session carries the token for the looked-up user and the stored record with that user's own username |
| SignIn.SignIn | backend/router/authentication_api.go:91-125 | never writes; a lookup error with a status keeps its status and message, any other is a 500; a hash mismatch is 401 "Invalid credentials"; a failed token after an accepted password is 500 "Failed to generate token"; a token is issued iff lookup, comparison and token creation all succeed |
| SignIn.LoginByEmailFails | backend/router/createUser.go:140-145 | signing in by an email that is nobody's username always ends in a 500 |
| SignIn.LoginByEmailExample | backend/router/createUser.go:123-147 | a concrete user who signs in by email gets a 500 from Login and their own record from LoginFixed |
| SignIn.LoginFixedReturnsSignedInUser | backend/router/createUser.go:134-147 | with a faithful lookup on a well-formed store, the corrected Login answers 200 with the looked-up user and its token |
| SignIn.LoginByUsernameSucceeds | backend/router/createUser.go:116-147 | signing in by username on a well-formed store, with a lookup that returns that stored user and no call failing, answers 200 with that user's token and record |
| SignIn.SignInAcceptsRegisteredPassword | backend/router/authentication_api.go:108-124 | if compare accepts every hash the hasher produced, a user stored with the hash of a password signs in with that password |
| Profile.GetUser | backend/router/createUser.go:93-114 | never writes; 401 for a missing or unverified token; 500 when the caller's record is not found; 200 iff the token verifies and its username is found, returning that stored record |
| Profile.Recheck | backend/router/createUser.go:176-200 | passes iff every changed, non-empty username and email is checked free; a failed username check is a 500 and a taken username the duplicate message, both before the email is consulted; once the username is kept, empty or free, a failed email check is a 500 and a taken email the duplicate message |
| Profile.UpdateProfile | backend/router/createUser.go:150-221 | both 401 branches, the 500 for a missing caller and the late 400 leave the store unchanged; a re-check refusal is the answer with nothing written; an update that passes the re-checks is saved as the merge of the request into the caller's record and reported, or reported not updated with nothing written when the save fails; the store changes only on a reported success |
| Profile.MergeChangesOnlySuppliedFields | backend/router/createUser.go:202-213 | each of name, username, email and description is replaced iff the request value is non-empty; id, password and avatar are kept |
| Profile.MergeEmptyIsIdentity | backend/router/createUser.go:202-213 | a request with all fields empty leaves the record unchanged |
| Profile.MergeIdempotent | backend/router/createUser.go:202-213 | applying a request twice equals applying it once |
| Profile.EmptyUpdateLeavesStore | backend/router/createUser.go:176-215 | an update whose four fields are empty leaves a well-formed store unchanged |
| Profile.UpdateProfileKeepsWellFormed | backend/router/createUser.go:176-215 | every UpdateProfile run keeps usernames and emails unique |
| Profile.UpdateToTakenUsernameRefused | backend/router/createUser.go:176-187 | moving to a username another user holds gets the duplicate message and leaves the store unchanged |
| Socials.ExtractSocialUrl | backend/router/createUser.go:359-366 | the URL of the first entry of the requested type, or "" when no entry has that type |
| Sequential.HandleKeepsWellFormed | backend/router/createUser.go:13-221 | each of the six handlers (CreateUser, Login as written and corrected, GetUser and UpdateProfile here, sign_up and sign_in in authentication_api.go) keeps a well-formed store well formed |
| Sequential.RunKeepsWellFormed | backend/router/createUser.go:13-221 | any sequence of handler runs, with any failures, keeps usernames and emails unique |
| Sequential.RegisterThenUpdateEmail | backend/router/createUser.go:13-221 | a user registered by CreateUser fetches their record with the minted token, changes only the email, and fetches the record again with the new email and the same username, given that the token verifies to the id it was minted for |

## Findings

| source | as written | input that shows it | evidently intended | confidence | as-written member | corrected member |
|---|---|---|---|---|---|---|
| backend/router/createUser.go:140 | after a successful lookup, `Login` fetches the response record with `FindUserByUsername(req.UsernameOrEmail)`, using the identifier as a username | user "ann1" with email "ann@x.com" signs in with "ann@x.com": lookup and token succeed, the username lookup finds nobody, answer 500 | fetch by the signed-in user's own username, `user.Username` | medium (assumes the store reports a missing user as an error); not executed | SignIn.LoginByEmailFails | SignIn.LoginFixedReturnsSignedInUser |

## Left out

- JSON binding and serialisation: a body that does not bind is a request value of `None`. Response bodies keep their kind and text but not their key spelling (`error`, `message`, `msg`).
- The `success` flag of the `sign_up` and `sign_in` answers is not kept. The two 200 duplicate answers of `sign_up` carry no flag. Every other answer of the two handlers carries `true` when it is a 200 session and `false` otherwise, so the status and the body's kind together fix it. `UpdateProfile`'s flag is kept as `Flagged(success, message)`.
- The text of errors produced by a failing call (`err.Error()`) is opaque. It is written `CallError(step)`.
- bcrypt, token signing and expiry, and the 24-hour lifetime are function-valued parameters. No round-trip law of theirs is assumed, except as the hypothesis of `SignIn.SignInAcceptsRegisteredPassword`.
- The username-or-email lookup used by `Login` and `sign_in` is a parameter. Its store code is not part of this model, and neither is the password check `Login` delegates to it.
- Id assignment is modelled as a counter in the store. The token is minted for the id the insertion returns, which assumes the store writes that id back into the record it was given.
- `UpdateUserProfile` is modelled as replacing the stored record with the same id. When it reports false, nothing is written.
- A missing user in `FindUserByUsername` is treated as an error of that call, the same as a failure.
- Concurrency, including the check-then-insert race between simultaneous registrations, is not modelled. Handlers run one at a time.
- The database connection setup, the file/avatar upload, and the project, favorite, bookmark, education, skills, socials-update and contact-update store methods are not exercised by these handlers.
- The commented-out `SaveProfile` handler is dead code.

=== FILE: accounts.dfy ===
/** The entities the account handlers work on: user records, the abstract
    store that holds them, the requests and responses of the HTTP handlers,
    and the external services (password hasher, token maker) the handlers call. */
module Accounts {
  import opened Wrappers

  /** Identifier the store assigns to a user document on insertion. */
  type UserId = nat

  /** A signed token as produced by the token maker; its contents are opaque here. */
  type Token = string

  /** A user document. `password` holds whatever the registering handler put
      there: the raw request password for CreateUser, a bcrypt hash for sign_up. */
  datatype User = User(
    id: UserId,
    name: string,
    username: string,
    password: string,
    email: string,
    description: string,
    avatar: string)

  /** The users collection, the owners of a Socials row and the owners of a
      Contact row. `nextId` is the identifier the next insertion receives. */
  datatype Store = Store(
    users: seq<User>,
    socials: set<UserId>,
    contacts: set<UserId>,
    nextId: UserId)

  /** Registration and profile-update body (name, username, email, password, description). */
  datatype CreateUserRequest = CreateUserRequest(
    name: string,
    username: string,
    email: string,
    password: string,
    description: string)

  /** Sign-in body. */
  datatype LoginRequest = LoginRequest(usernameOrEmail: string, password: string)

  /** The calls a handler makes that can report an error of their own. */
  datatype Step =
    | Bind            // decoding the JSON request body
    | CheckEmail      // the store's email existence check
    | CheckUsername   // the store's username existence check
    | InsertUser      // the store's user insertion
    | InsertSocials   // the store's Socials row creation
    | InsertContact   // the store's Contact row creation
    | FindUser        // the store's lookup by username
    | Lookup          // the store's lookup by username or email
    | SaveProfile     // the store's profile replacement (reports only true/false)

  /** What a handler writes into its JSON response, without the key spelling. */
  datatype Body =
    | CallError(step: Step)                              // the failing call's own error text
    | Text(text: string)                                 // a fixed message or error text
    | Session(text: string, token: Token, user: User)    // a token together with a user record
    | Record(user: User)                                  // a bare user record
    | Flagged(success: bool, text: string)               // a success flag with a message

  datatype Response = Response(status: int, body: Body)

  /** The response of one handler run and the store it leaves behind. */
  datatype Handled = Handled(response: Response, store: Store)

  /** The claims a verified token carries. */
  datatype Payload = Payload(username: string, userId: UserId)

  /** An error from the username-or-email lookup: either one that carries its
      own HTTP status and message, or any other error. */
  datatype LookupError = HttpError(status: int, message: string) | OtherError

  /** The collaborators whose code is not part of this model. A `None` result
      stands for the call returning an error. */
  datatype Services = Services(
    hash: string -> Option<string>,                   // bcrypt.GenerateFromPassword
    compare: (string, string) -> bool,                // bcrypt.CompareHashAndPassword(hash, plain) == nil
    createToken: (string, UserId, int) -> Option<Token>,  // token maker used by createUser.go
    createTokenFor: UserId -> Option<Token>,          // token maker used by authentication_api.go
    verifyToken: Token -> Option<Payload>)            // token verification

  const StatusOK := 200
  const StatusBadRequest := 400
  const StatusUnauthorized := 401
  const StatusInternalServerError := 500

  /** Token lifetime requested by createUser.go, in hours. */
  const TokenLifetimeHours := 24

  const SameEmail := "User with the same email already exists"
  const SameUsername := "User with the same username already exists"
  const UserCreated := "User created successfully"
  const TokenFailed := "Failed to generate token"
  const TokenRequired := "Authorization token required"
  const InvalidToken := "Invalid token"
  const ProfileUpdated := "Profile updated successfully"
  const ProfileNotUpdated := "Failed to update profile"
  const HashFailed := "Failed to hash password"
  const InvalidCredentials := "Invalid credentials"
  const LoggedIn := "Login successfully"
}

=== FILE: profile.dfy ===
/** The token-gated handlers of createUser.go: GetUser reads the caller's
    record, UpdateProfile re-checks the uniqueness of a changed username or
    email and then merges the non-empty request fields into the record. */
module Profile {
  import opened Wrappers
  import opened Accounts
  import opened UserStore

  /** The token gate both handlers open with: an empty Authorization header
      and a token that fails verification are both refused with a 401. */
  function Authenticate(header: string, svc: Services): Result<Payload, Response> {
    if header == "" then Failure(Response(StatusUnauthorized, Text(TokenRequired)))
    else match svc.verifyToken(header)
      case None => Failure(Response(StatusUnauthorized, Text(InvalidToken)))
      case Some(payload) => Success(payload)
  }

  /** GetUser: the caller's own record, never a write. */
  function GetUser(s: Store, header: string, fails: set<Step>, svc: Services): (h: Handled)
    ensures h.store == s
    ensures header == "" ==> h.response == Response(StatusUnauthorized, Text(TokenRequired))
    ensures header != "" && svc.verifyToken(header).None? ==>
      h.response == Response(StatusUnauthorized, Text(InvalidToken))
    ensures header != "" && svc.verifyToken(header).Some?
            && FindCall(s, svc.verifyToken(header).value.username, fails).None? ==>
      h.response == Response(StatusInternalServerError, CallError(FindUser))
    ensures h.response.status == StatusOK <==>
      header != "" && svc.verifyToken(header).Some?
      && FindCall(s, svc.verifyToken(header).value.username, fails).Some?
    ensures h.response.status == StatusOK ==>
      h.response.body.Record? && h.response.body.user in s.users
      && h.response.body.user.username == svc.verifyToken(header).value.username
  {
    match Authenticate(header, svc)
    case Failure(refusal) => Handled(refusal, s)
    case Success(payload) =>
      match FindCall(s, payload.username, fails)
      case None => Handled(Response(StatusInternalServerError, CallError(FindUser)), s)
      case Some(user) => Handled(Response(StatusOK, Record(user)), s)
  }

  /** The fields the profile update copies: each non-empty request value
      replaces the current one, an empty one leaves it. */
  function Merge(cur: User, req: CreateUserRequest): (u: User) {
    cur.(name := if req.name != "" then req.name else cur.name,
         username := if req.username != "" then req.username else cur.username,
         email := if req.email != "" then req.email else cur.email,
         description := if req.description != "" then req.description else cur.description)
  }

  /** Verdict of the uniqueness re-checks: the username when it changes, then
      the email when it changes. */
  function Recheck(s: Store, cur: User, req: CreateUserRequest, fails: set<Step>): (r: Option<Response>)
    ensures r.None? <==>
      && (req.username != "" && req.username != cur.username ==>
            CheckUsername !in fails && !UsernameTaken(s, req.username))
      && (req.email != "" && req.email != cur.email ==>
            CheckEmail !in fails && !EmailTaken(s, req.email))
    // the email is not consulted while the username check fails or refuses
    ensures (req.username != "" && req.username != cur.username && CheckUsername in fails) ==>
      r == Some(Response(StatusInternalServerError, CallError(CheckUsername)))
    ensures (req.username != "" && req.username != cur.username && CheckUsername !in fails
             && UsernameTaken(s, req.username)) ==> r == Some(Response(StatusOK, Text(SameUsername)))
    // once the username is kept, empty or checked free, the changed email decides
    ensures ((req.username == "" || req.username == cur.username
              || (CheckUsername !in fails && !UsernameTaken(s, req.username)))
             && req.email != "" && req.email != cur.email && CheckEmail in fails) ==>
      r == Some(Response(StatusInternalServerError, CallError(CheckEmail)))
    ensures ((req.username == "" || req.username == cur.username
              || (CheckUsername !in fails && !UsernameTaken(s, req.username)))
             && req.email != "" && req.email != cur.email && CheckEmail !in fails
             && EmailTaken(s, req.email)) ==> r == Some(Response(StatusOK, Text(SameEmail)))
  {
    if req.username != "" && req.username != cur.username && CheckUsername in fails then
      Some(Response(StatusInternalServerError, CallError(CheckUsername)))
    else if req.username != "" && req.username != cur.username && UsernameTaken(s, req.username) then
      Some(Response(StatusOK, Text(SameUsername)))
    else if req.email != "" && req.email != cur.email && CheckEmail in fails then
      Some(Response(StatusInternalServerError, CallError(CheckEmail)))
    else if req.email != "" && req.email != cur.email && EmailTaken(s, req.email) then
      Some(Response(StatusOK, Text(SameEmail)))
    else None
  }

  /** UpdateProfile. `req` is `None` when the body does not bind; binding is
      attempted only after the token gate and the user lookup. */
  function UpdateProfile(s: Store, header: string, req: Option<CreateUserRequest>,
                         fails: set<Step>, svc: Services): (h: Handled)
    ensures header == "" ==> h == Handled(Response(StatusUnauthorized, Text(TokenRequired)), s)
    ensures header != "" && svc.verifyToken(header).None? ==>
      h == Handled(Response(StatusUnauthorized, Text(InvalidToken)), s)
    // the caller's record must be found before anything else happens
    ensures header != "" && svc.verifyToken(header).Some?
            && FindCall(s, svc.verifyToken(header).value.username, fails).None? ==>
      h == Handled(Response(StatusInternalServerError, CallError(FindUser)), s)
    // a body that does not bind is refused only once the caller is known
    ensures header != "" && svc.verifyToken(header).Some?
            && FindCall(s, svc.verifyToken(header).value.username, fails).Some? && req.None? ==>
      h == Handled(Response(StatusBadRequest, CallError(Bind)), s)
    // a refusal of the uniqueness re-checks is the answer, and nothing is written
    ensures header != "" && svc.verifyToken(header).Some? && req.Some?
            && FindCall(s, svc.verifyToken(header).value.username, fails).Some?
            && Recheck(s, FindCall(s, svc.verifyToken(header).value.username, fails).value, req.value, fails).Some? ==>
      h == Handled(Recheck(s, FindCall(s, svc.verifyToken(header).value.username, fails).value,
                           req.value, fails).value, s)
    // an update that passes the re-checks and is saved is applied and reported
    ensures header != "" && svc.verifyToken(header).Some? && req.Some?
            && FindCall(s, svc.verifyToken(header).value.username, fails).Some?
            && Recheck(s, FindCall(s, svc.verifyToken(header).value.username, fails).value, req.value, fails).None?
            && SaveProfile !in fails ==>
      h == Handled(Response(StatusOK, Flagged(true, ProfileUpdated)),
                   Replace(s, Merge(FindCall(s, svc.verifyToken(header).value.username, fails).value, req.value)))
    // a failed save is reported as such and writes nothing
    ensures header != "" && svc.verifyToken(header).Some? && req.Some?
            && FindCall(s, svc.verifyToken(header).value.username, fails).Some?
            && Recheck(s, FindCall(s, svc.verifyToken(header).value.username, fails).value, req.value, fails).None?
            && SaveProfile in fails ==>
      h == Handled(Response(StatusInternalServerError, Flagged(false, ProfileNotUpdated)), s)
    // the store changes only on a reported success
    ensures h.store != s ==> h.response == Response(StatusOK, Flagged(true, ProfileUpdated))
    // success: the caller's record, re-checked, is replaced by the merged one
    ensures h.response.body == Flagged(true, ProfileUpdated) ==>
      && h.response.status == StatusOK
      && header != "" && svc.verifyToken(header).Some? && req.Some?
      && var cur := FindCall(s, svc.verifyToken(header).value.username, fails);
      && cur.Some?
      && Recheck(s, cur.value, req.value, fails).None?
      && SaveProfile !in fails
      && h.store == Replace(s, Merge(cur.value, req.value))
  {
    match Authenticate(header, svc)
    case Failure(refusal) => Handled(refusal, s)
    case Success(payload) =>
      match FindCall(s, payload.username, fails)
      case None => Handled(Response(StatusInternalServerError, CallError(FindUser)), s)
      case Some(cur) =>
        match req
        case None => Handled(Response(StatusBadRequest, CallError(Bind)), s)
        case Some(r) =>
          match Recheck(s, cur, r, fails)
          case Some(refusal) => Handled(refusal, s)
          case None =>
            if SaveProfile in fails then
              Handled(Response(StatusInternalServerError, Flagged(false, ProfileNotUpdated)), s)
            else
              Handled(Response(StatusOK, Flagged(true, ProfileUpdated)), Replace(s, Merge(cur, r)))
  }

  /** The merge touches a field exactly when the request supplies a non-empty
      value for it, and never touches the id, the password or the avatar. */
  lemma MergeChangesOnlySuppliedFields(cur: User, req: CreateUserRequest)
    ensures var u := Merge(cur, req);
      && u.id == cur.id && u.password == cur.password && u.avatar == cur.avatar
      && (req.name == "" ==> u.name == cur.name)
      && (req.name != "" ==> u.name == req.name)
      && (req.username == "" ==> u.username == cur.username)
      && (req.username != "" ==> u.username == req.username)
      && (req.email == "" ==> u.email == cur.email)
      && (req.email != "" ==> u.email == req.email)
      && (req.description == "" ==> u.description == cur.description)
      && (req.description != "" ==> u.description == req.description)
  {
  }

  /** A request with every field empty leaves the record as it is. */
  lemma MergeEmptyIsIdentity(cur: User)
    ensures Merge(cur, CreateUserRequest("", "", "", "", "")) == cur
  {
  }

  /** Applying the same request twice is the same as applying it once. */
  lemma MergeIdempotent(cur: User, req: CreateUserRequest)
    ensures Merge(Merge(cur, req), req) == Merge(cur, req)
  {
  }

  /** An update request with all four fields empty passes the re-checks and
      rewrites the caller's record with itself: the store is unchanged. */
  lemma EmptyUpdateLeavesStore(s: Store, header: string, password: string, fails: set<Step>, svc: Services)
    requires WellFormed(s)
    ensures UpdateProfile(s, header, Some(CreateUserRequest("", "", "", password, "")), fails, svc).store == s
  {
  }


  /** Every run of UpdateProfile keeps ids distinct and usernames and emails unique. */
  lemma UpdateProfileKeepsWellFormed(s: Store, header: string, req: Option<CreateUserRequest>,
                                     fails: set<Step>, svc: Services)
    requires WellFormed(s)
    ensures WellFormed(UpdateProfile(s, header, req, fails, svc).store)
  {
  }

  /** A profile update that moves to a username another user holds is
      refused with the duplicate message, and the caller's record keeps its
      old username. */
  lemma UpdateToTakenUsernameRefused(s: Store, header: string, req: CreateUserRequest, fails: set<Step>, svc: Services)
    requires header != "" && svc.verifyToken(header).Some?
    requires FindCall(s, svc.verifyToken(header).value.username, fails).Some?
    requires req.username != "" && req.username != svc.verifyToken(header).value.username
    requires CheckUsername !in fails && UsernameTaken(s, req.username)
    ensures UpdateProfile(s, header, Some(req), fails, svc) == Handled(Response(StatusOK, Text(SameUsername)), s)
  {
  }
}

=== FILE: registration.dfy ===
/** The two registration handlers: CreateUser (stores the request password
    as given) and sign_up (stores a bcrypt hash of it). Both check the email
    before the username, report a duplicate as a 200 message, and then write
    the user, its Socials row and its Contact row one after the other with no
    rollback when a later write fails. */
module Registration {
  import opened Wrappers
  import opened Accounts
  import opened UserStore

  /** Verdict of the two existence checks that open both registration handlers. */
  datatype Admission = Admitted | Duplicate(message: string) | CheckFailed(step: Step)

  /** The email check, then the username check; the first failing call or
      the first taken identity decides. */
  function Admit(s: Store, email: string, username: string, fails: set<Step>): (a: Admission)
    ensures a == Admitted <==>
      CheckEmail !in fails && !EmailTaken(s, email) && CheckUsername !in fails && !UsernameTaken(s, username)
    ensures a == Duplicate(SameEmail) <==> CheckEmail !in fails && EmailTaken(s, email)
    ensures a == Duplicate(SameUsername) <==>
      CheckEmail !in fails && !EmailTaken(s, email) && CheckUsername !in fails && UsernameTaken(s, username)
    // a failing email check ends the admission before the username is looked at
    ensures CheckEmail in fails ==> a == CheckFailed(CheckEmail)
    ensures CheckEmail !in fails && !EmailTaken(s, email) && CheckUsername in fails ==>
      a == CheckFailed(CheckUsername)
    ensures a.CheckFailed? ==> a.step in fails
    ensures a.Duplicate? ==> a.message in {SameEmail, SameUsername}
  {
    if CheckEmail in fails then CheckFailed(CheckEmail)
    else if EmailTaken(s, email) then Duplicate(SameEmail)
    else if CheckUsername in fails then CheckFailed(CheckUsername)
    else if UsernameTaken(s, username) then Duplicate(SameUsername)
    else Admitted
  }

  /** What the three registration writes leave behind: the store, the id the
      user received (meaningful once the user was written) and the first write
      that failed, if any. */
  datatype Persisted = Persisted(store: Store, id: UserId, failed: Option<Step>)

  /** Writes the user, then its Socials row, then its Contact row; stops at
      the first write that fails and keeps the writes already made. */
  function Persist(s: Store, u: User, fails: set<Step>): (p: Persisted)
    ensures p.failed.None? <==> InsertUser !in fails && InsertSocials !in fails && InsertContact !in fails
    ensures p.failed == Some(InsertUser) <==> InsertUser in fails
    // the first failing write is the one reported, and the writes after it are not made
    ensures InsertUser !in fails && InsertSocials in fails ==> p.failed == Some(InsertSocials)
    ensures InsertUser !in fails && InsertSocials !in fails && InsertContact in fails ==>
      p.failed == Some(InsertContact)
    ensures p.failed == Some(InsertUser) ==> p.store == s
    ensures p.failed != Some(InsertUser) ==>
      && p.id == s.nextId
      && p.store.users == s.users + [u.(id := s.nextId)]
      && p.store.nextId == s.nextId + 1
    ensures p.failed == Some(InsertSocials) ==> p.store.socials == s.socials && p.store.contacts == s.contacts
    ensures p.failed == Some(InsertContact) ==> p.store.socials == s.socials + {p.id} && p.store.contacts == s.contacts
    ensures p.failed.None? ==> p.store.socials == s.socials + {p.id} && p.store.contacts == s.contacts + {p.id}
  {
    if InsertUser in fails then Persisted(s, 0, Some(InsertUser))
    else
      var (s1, id) := Insert(s, u);
      if InsertSocials in fails then Persisted(s1, id, Some(InsertSocials))
      else
        var s2 := AddSocials(s1, id);
        if InsertContact in fails then Persisted(s2, id, Some(InsertContact))
        else Persisted(AddContact(s2, id), id, None)
  }

  /** The record both handlers build from the request before writing it. */
  function NewUser(req: CreateUserRequest, password: string): (u: User) {
    User(0, req.name, req.username, password, req.email, req.description, "")
  }

  /** CreateUser in createUser.go. `req` is `None` when the body does not bind. */
  function CreateUser(s: Store, req: Option<CreateUserRequest>, fails: set<Step>, svc: Services): (h: Handled)
    // a body that does not bind is rejected before the store is consulted
    ensures req.None? ==> h == Handled(Response(StatusBadRequest, CallError(Bind)), s)
    // a taken email is reported first, whatever the username
    ensures req.Some? && CheckEmail !in fails && EmailTaken(s, req.value.email) ==>
      h == Handled(Response(StatusOK, Text(SameEmail)), s)
    // a free email and a taken username
    ensures req.Some? && CheckEmail !in fails && !EmailTaken(s, req.value.email)
            && CheckUsername !in fails && UsernameTaken(s, req.value.username) ==>
      h == Handled(Response(StatusOK, Text(SameUsername)), s)
    // a failing existence check is a 500 carrying that call's error, and writes nothing
    ensures req.Some? && Admit(s, req.value.email, req.value.username, fails).CheckFailed? ==>
      h == Handled(Response(StatusInternalServerError,
                            CallError(Admit(s, req.value.email, req.value.username, fails).step)), s)
    // once admitted, a failing write is a 500 naming it
    ensures req.Some? && Admit(s, req.value.email, req.value.username, fails) == Admitted && InsertUser in fails ==>
      h == Handled(Response(StatusInternalServerError, CallError(InsertUser)), s)
    ensures req.Some? && Admit(s, req.value.email, req.value.username, fails) == Admitted
            && InsertUser !in fails && InsertSocials in fails ==>
      h.response == Response(StatusInternalServerError, CallError(InsertSocials))
    ensures req.Some? && Admit(s, req.value.email, req.value.username, fails) == Admitted
            && InsertUser !in fails && InsertSocials !in fails && InsertContact in fails ==>
      h.response == Response(StatusInternalServerError, CallError(InsertContact))
    // after the three writes, a failed token and a failed final lookup are 500s too
    ensures req.Some? && Admit(s, req.value.email, req.value.username, fails) == Admitted
            && InsertUser !in fails && InsertSocials !in fails && InsertContact !in fails
            && svc.createToken(req.value.username, s.nextId, TokenLifetimeHours).None? ==>
      h.response == Response(StatusInternalServerError, Text(TokenFailed))
    ensures req.Some? && Admit(s, req.value.email, req.value.username, fails) == Admitted
            && InsertUser !in fails && InsertSocials !in fails && InsertContact !in fails
            && svc.createToken(req.value.username, s.nextId, TokenLifetimeHours).Some? && FindUser in fails ==>
      h.response == Response(StatusInternalServerError, CallError(FindUser))
    // a 200 is either the new session or a duplicate message that wrote nothing
    ensures h.response.status == StatusOK ==>
      h.response.body.Session? || (h.store == s && h.response.body in {Text(SameEmail), Text(SameUsername)})
    // once the three writes succeed they stay, whatever the token and the final lookup do
    ensures req.Some? && Admit(s, req.value.email, req.value.username, fails) == Admitted
            && InsertUser !in fails && InsertSocials !in fails && InsertContact !in fails ==>
      h.store == Registered(s, NewUser(req.value, req.value.password))
    // nothing is written unless both identities were checked free
    ensures h.store != s ==>
      req.Some? && Admit(s, req.value.email, req.value.username, fails) == Admitted && InsertUser !in fails
    // any write appends exactly the request's user, holding the raw password
    ensures h.store != s ==>
      h.store.users == s.users + [User(s.nextId, req.value.name, req.value.username, req.value.password,
                                       req.value.email, req.value.description, "")]
    // success needs every call to go through, and answers with the new user
    ensures h.response.status == StatusOK && h.response.body.Session? ==>
      && req.Some?
      && h.store.socials == s.socials + {s.nextId}
      && h.store.contacts == s.contacts + {s.nextId}
      && h.response.body.user == User(s.nextId, req.value.name, req.value.username, req.value.password,
                                      req.value.email, req.value.description, "")
      && h.response.body.text == UserCreated
      && Some(h.response.body.token) == svc.createToken(req.value.username, s.nextId, TokenLifetimeHours)
  {
    match req
    case None => Handled(Response(StatusBadRequest, CallError(Bind)), s)
    case Some(r) =>
      match Admit(s, r.email, r.username, fails)
      case CheckFailed(step) => Handled(Response(StatusInternalServerError, CallError(step)), s)
      case Duplicate(message) => Handled(Response(StatusOK, Text(message)), s)
      case Admitted =>
        var p := Persist(s, NewUser(r, r.password), fails);
        if p.failed.Some? then Handled(Response(StatusInternalServerError, CallError(p.failed.value)), p.store)
        else
          match svc.createToken(r.username, p.id, TokenLifetimeHours)
          case None => Handled(Response(StatusInternalServerError, Text(TokenFailed)), p.store)
          case Some(token) =>
            match FindCall(p.store, r.username, fails)
            case None => Handled(Response(StatusInternalServerError, CallError(FindUser)), p.store)
            case Some(user) => Handled(Response(StatusOK, Session(UserCreated, token, user)), p.store)
  }

  /** sign_up in authentication_api.go. `req` is `None` when the body does not bind. */
  function SignUp(s: Store, req: Option<CreateUserRequest>, fails: set<Step>, svc: Services): (h: Handled)
    ensures req.None? ==> h == Handled(Response(StatusBadRequest, CallError(Bind)), s)
    ensures req.Some? && CheckEmail !in fails && EmailTaken(s, req.value.email) ==>
      h == Handled(Response(StatusOK, Text(SameEmail)), s)
    ensures req.Some? && CheckEmail !in fails && !EmailTaken(s, req.value.email)
            && CheckUsername !in fails && UsernameTaken(s, req.value.username) ==>
      h == Handled(Response(StatusOK, Text(SameUsername)), s)
    ensures req.Some? && Admit(s, req.value.email, req.value.username, fails).CheckFailed? ==>
      h == Handled(Response(StatusInternalServerError,
                            CallError(Admit(s, req.value.email, req.value.username, fails).step)), s)
    // hashing runs after both checks and before any write; its failure writes nothing
    ensures req.Some? && Admit(s, req.value.email, req.value.username, fails) == Admitted
            && svc.hash(req.value.password).None? ==>
      h == Handled(Response(StatusInternalServerError, Text(HashFailed)), s)
    // once hashed, a failing write is a 500 naming it
    ensures req.Some? && Admit(s, req.value.email, req.value.username, fails) == Admitted
            && svc.hash(req.value.password).Some? && InsertUser in fails ==>
      h == Handled(Response(StatusInternalServerError, CallError(InsertUser)), s)
    ensures req.Some? && Admit(s, req.value.email, req.value.username, fails) == Admitted
            && svc.hash(req.value.password).Some? && InsertUser !in fails && InsertSocials in fails ==>
      h.response == Response(StatusInternalServerError, CallError(InsertSocials))
    ensures req.Some? && Admit(s, req.value.email, req.value.username, fails) == Admitted
            && svc.hash(req.value.password).Some? && InsertUser !in fails && InsertSocials !in fails
            && InsertContact in fails ==>
      h.response == Response(StatusInternalServerError, CallError(InsertContact))
    // after the three writes, a failed token is a 500
    ensures req.Some? && Admit(s, req.value.email, req.value.username, fails) == Admitted
            && svc.hash(req.value.password).Some?
            && InsertUser !in fails && InsertSocials !in fails && InsertContact !in fails
            && svc.createTokenFor(s.nextId).None? ==>
      h.response == Response(StatusInternalServerError, Text(TokenFailed))
    // a 200 is either the new session or a duplicate message that wrote nothing
    ensures h.response.status == StatusOK ==>
      h.response.body.Session? || (h.store == s && h.response.body in {Text(SameEmail), Text(SameUsername)})
    // once the three writes succeed they stay, whatever the token does
    ensures req.Some? && Admit(s, req.value.email, req.value.username, fails) == Admitted
            && svc.hash(req.value.password).Some?
            && InsertUser !in fails && InsertSocials !in fails && InsertContact !in fails ==>
      h.store == Registered(s, NewUser(req.value, svc.hash(req.value.password).value))
    // any write appends exactly the request's user, holding the hash of the password
    ensures h.store != s ==>
      && req.Some? && Admit(s, req.value.email, req.value.username, fails) == Admitted
      && svc.hash(req.value.password).Some? && InsertUser !in fails
      && h.store.users == s.users + [User(s.nextId, req.value.name, req.value.username,
                                          svc.hash(req.value.password).value,
                                          req.value.email, req.value.description, "")]
    // the response carries the stored record, hash included
    ensures h.response.status == StatusOK && h.response.body.Session? ==>
      && h.store != s
      && h.store.socials == s.socials + {s.nextId}
      && h.store.contacts == s.contacts + {s.nextId}
      && h.response.body.user == h.store.users[|s.users|]
      && h.response.body.text == UserCreated
      && Some(h.response.body.token) == svc.createTokenFor(s.nextId)
  {
    match req
    case None => Handled(Response(StatusBadRequest, CallError(Bind)), s)
    case Some(r) =>
      match Admit(s, r.email, r.username, fails)
      case CheckFailed(step) => Handled(Response(StatusInternalServerError, CallError(step)), s)
      case Duplicate(message) => Handled(Response(StatusOK, Text(message)), s)
      case Admitted =>
        match svc.hash(r.password)
        case None => Handled(Response(StatusInternalServerError, Text(HashFailed)), s)
        case Some(hashed) =>
          var p := Persist(s, NewUser(r, hashed), fails);
          if p.failed.Some? then Handled(Response(StatusInternalServerError, CallError(p.failed.value)), p.store)
          else
            match svc.createTokenFor(p.id)
            case None => Handled(Response(StatusInternalServerError, Text(TokenFailed)), p.store)
            case Some(token) =>
              Handled(Response(StatusOK, Session(UserCreated, token, NewUser(r, hashed).(id := p.id))), p.store)
  }

  /** After a user with a free username is appended, the lookup by that
      username finds the appended record. */
  lemma FreshUserFound(s: Store, u: User)
    requires !UsernameTaken(s, u.username)
    ensures FindByUsername(Insert(s, u).0, u.username) == Some(Insert(s, u).0.users[|s.users|])
  {
  }

  /** CreateUser does not roll back: once the user is written, a failing
      Socials write leaves the user without Socials and Contact rows, and a
      failing Contact write leaves it with Socials only. */
  lemma CreateUserNoRollback(s: Store, req: CreateUserRequest, fails: set<Step>, svc: Services)
    requires Admit(s, req.email, req.username, fails) == Admitted && InsertUser !in fails
    ensures var h := CreateUser(s, Some(req), fails, svc);
      && h.store.users == s.users + [NewUser(req, req.password).(id := s.nextId)]
      && (InsertSocials in fails ==>
            h.response == Response(StatusInternalServerError, CallError(InsertSocials))
            && h.store.socials == s.socials && h.store.contacts == s.contacts)
      && (InsertSocials !in fails && InsertContact in fails ==>
            h.response == Response(StatusInternalServerError, CallError(InsertContact))
            && h.store.socials == s.socials + {s.nextId} && h.store.contacts == s.contacts)
  {
  }

  /** sign_up does not roll back either. */
  lemma SignUpNoRollback(s: Store, req: CreateUserRequest, fails: set<Step>, svc: Services, hashed: string)
    requires Admit(s, req.email, req.username, fails) == Admitted && InsertUser !in fails
    requires svc.hash(req.password) == Some(hashed)
    ensures var h := SignUp(s, Some(req), fails, svc);
      && h.store.users == s.users + [NewUser(req, hashed).(id := s.nextId)]
      && (InsertSocials in fails ==>
            h.response == Response(StatusInternalServerError, CallError(InsertSocials))
            && h.store.socials == s.socials && h.store.contacts == s.contacts)
      && (InsertSocials !in fails && InsertContact in fails ==>
            h.response == Response(StatusInternalServerError, CallError(InsertContact))
            && h.store.socials == s.socials + {s.nextId} && h.store.contacts == s.contacts)
  {
  }

  /** Every run of CreateUser, successful or not, keeps ids distinct and
      usernames and emails unique. */
  lemma CreateUserKeepsWellFormed(s: Store, req: Option<CreateUserRequest>, fails: set<Step>, svc: Services)
    requires WellFormed(s)
    ensures WellFormed(CreateUser(s, req, fails, svc).store)
  {
  }

  /** Every run of sign_up keeps ids distinct and usernames and emails unique. */
  lemma SignUpKeepsWellFormed(s: Store, req: Option<CreateUserRequest>, fails: set<Step>, svc: Services)
    requires WellFormed(s)
    ensures WellFormed(SignUp(s, req, fails, svc).store)
  {
  }


  /** Registering the same email twice: once a first CreateUser has written
      its user, a second one with that email is answered with the duplicate
      message and changes nothing, whatever its username. */
  lemma SecondRegistrationIsDuplicate(s: Store, first: CreateUserRequest, second: CreateUserRequest,
                                      fails1: set<Step>, fails2: set<Step>, svc: Services)
    requires CreateUser(s, Some(first), fails1, svc).store != s
    requires second.email == first.email && CheckEmail !in fails2
    ensures var t := CreateUser(s, Some(first), fails1, svc).store;
      CreateUser(t, Some(second), fails2, svc) == Handled(Response(StatusOK, Text(SameEmail)), t)
  {
    var t := CreateUser(s, Some(first), fails1, svc).store;
    assert t.users[|s.users|].email == first.email;
  }

  /** The store after a registration whose three writes all went through. */
  function Registered(s: Store, u: User): (t: Store) {
    Store(s.users + [u.(id := s.nextId)], s.socials + {s.nextId}, s.contacts + {s.nextId}, s.nextId + 1)
  }

  /** CreateUser succeeds whenever both identities are free and no call
      fails: 200 with the token and the new record, and a store holding the
      user, its Socials row and its Contact row. */
  lemma CreateUserSucceeds(s: Store, req: CreateUserRequest, fails: set<Step>, svc: Services, token: Token)
    requires Admit(s, req.email, req.username, fails) == Admitted
    requires InsertUser !in fails && InsertSocials !in fails && InsertContact !in fails && FindUser !in fails
    requires svc.createToken(req.username, s.nextId, TokenLifetimeHours) == Some(token)
    ensures CreateUser(s, Some(req), fails, svc) ==
      Handled(Response(StatusOK, Session(UserCreated, token, NewUser(req, req.password).(id := s.nextId))),
              Registered(s, NewUser(req, req.password)))
  {
    var u := NewUser(req, req.password);
    FreshUserFound(s, u);
    assert FindByUsername(Registered(s, u), req.username) == FindByUsername(Insert(s, u).0, req.username);
  }

  /** sign_up succeeds whenever both identities are free, hashing works and
      no call fails: 200 with the token for the new id and the stored record,
      whose password is the hash. */
  lemma SignUpSucceeds(s: Store, req: CreateUserRequest, fails: set<Step>, svc: Services,
                       hashed: string, token: Token)
    requires Admit(s, req.email, req.username, fails) == Admitted
    requires InsertUser !in fails && InsertSocials !in fails && InsertContact !in fails
    requires svc.hash(req.password) == Some(hashed)
    requires svc.createTokenFor(s.nextId) == Some(token)
    ensures SignUp(s, Some(req), fails, svc) ==
      Handled(Response(StatusOK, Session(UserCreated, token, NewUser(req, hashed).(id := s.nextId))),
              Registered(s, NewUser(req, hashed)))
  {
  }
}

=== FILE: sequential.dfy ===
/** The handlers run one after another against one store. Whatever mix of
    requests arrives, and whichever calls fail along the way, no two users
    ever end up sharing a username or an email. */
module Sequential {
  import opened Wrappers
  import opened Accounts
  import opened UserStore
  import Registration
  import SignIn
  import Profile

  /** One request to one of the handlers, together with the results of the
      calls this model does not compute (failures, the username-or-email
      lookup). `LoginCall` runs Login as written; `FixedLoginCall` runs it
      with the second lookup keyed by the signed-in user's username. */
  datatype Call =
    | CreateUserCall(req: Option<CreateUserRequest>, fails: set<Step>)
    | SignUpCall(req: Option<CreateUserRequest>, fails: set<Step>)
    | LoginCall(login: Option<LoginRequest>, lookup: Result<User, LookupError>, fails: set<Step>)
    | FixedLoginCall(login: Option<LoginRequest>, lookup: Result<User, LookupError>, fails: set<Step>)
    | SignInCall(login: Option<LoginRequest>, lookup: Result<User, LookupError>)
    | GetUserCall(header: string, fails: set<Step>)
    | UpdateProfileCall(header: string, req: Option<CreateUserRequest>, fails: set<Step>)

  function Handle(s: Store, svc: Services, c: Call): Handled {
    match c
    case CreateUserCall(req, fails) => Registration.CreateUser(s, req, fails, svc)
    case SignUpCall(req, fails) => Registration.SignUp(s, req, fails, svc)
    case LoginCall(login, lookup, fails) => SignIn.Login(s, login, lookup, fails, svc)
    case FixedLoginCall(login, lookup, fails) => SignIn.LoginFixed(s, login, lookup, fails, svc)
    case SignInCall(login, lookup) => SignIn.SignIn(s, login, lookup, svc)
    case GetUserCall(header, fails) => Profile.GetUser(s, header, fails, svc)
    case UpdateProfileCall(header, req, fails) => Profile.UpdateProfile(s, header, req, fails, svc)
  }

  /** The store after handling `calls` in order, together with every response. */
  function Run(s: Store, svc: Services, calls: seq<Call>): (Store, seq<Response>)
    decreases |calls|
  {
    if |calls| == 0 then (s, [])
    else
      var h := Handle(s, svc, calls[0]);
      var (t, rs) := Run(h.store, svc, calls[1..]);
      (t, [h.response] + rs)
  }

  /** One handler run keeps the store well formed. */
  lemma HandleKeepsWellFormed(s: Store, svc: Services, c: Call)
    requires WellFormed(s)
    ensures WellFormed(Handle(s, svc, c).store)
  {
  }

  /** Any sequence of handler runs keeps ids distinct and usernames and emails unique. */
  lemma {:induction false} RunKeepsWellFormed(s: Store, svc: Services, calls: seq<Call>)
    requires WellFormed(s)
    ensures WellFormed(Run(s, svc, calls).0)
    decreases |calls|
  {
    if |calls| > 0 {
      HandleKeepsWellFormed(s, svc, calls[0]);
      RunKeepsWellFormed(Handle(s, svc, calls[0]).store, svc, calls[1..]);
    }
  }

  /** End to end: a user registers with CreateUser, fetches their record with
      the minted token, changes only the email, and fetches the record again.
      The token's verification is a hypothesis: it returns the username and
      id the token was minted for. */
  lemma RegisterThenUpdateEmail(s: Store, req: CreateUserRequest, svc: Services, token: Token, email: string)
    requires WellFormed(s) && Registration.Admit(s, req.email, req.username, {}) == Registration.Admitted
    requires svc.createToken(req.username, s.nextId, TokenLifetimeHours) == Some(token)
    requires token != "" && svc.verifyToken(token) == Some(Payload(req.username, s.nextId))
    requires email != "" && email != req.email && !EmailTaken(s, email)
    ensures var user := Registration.NewUser(req, req.password).(id := s.nextId);
      var h1 := Registration.CreateUser(s, Some(req), {}, svc);
      var h2 := Profile.UpdateProfile(h1.store, token, Some(CreateUserRequest("", "", email, "", "")), {}, svc);
      && h1.response == Response(StatusOK, Session(UserCreated, token, user))
      && Profile.GetUser(h1.store, token, {}, svc).response == Response(StatusOK, Record(user))
      && h2.response == Response(StatusOK, Flagged(true, ProfileUpdated))
      && Profile.GetUser(h2.store, token, {}, svc).response == Response(StatusOK, Record(user.(email := email)))
  {
    var u := Registration.NewUser(req, req.password);
    var user := u.(id := s.nextId);
    Registration.CreateUserSucceeds(s, req, {}, svc, token);
    var t1 := Registration.Registered(s, u);
    assert t1.users[|s.users|] == user;
    Registration.FreshUserFound(s, u);
    assert FindCall(t1, req.username, {}) == Some(user) by {
      assert FindByUsername(t1, req.username) == FindByUsername(Insert(s, u).0, req.username);
    }
    assert !EmailTaken(t1, email) by {
      forall i | 0 <= i < |t1.users| ensures t1.users[i].email != email {
        if i < |s.users| { assert t1.users[i] == s.users[i]; }
      }
    }
    var t2 := Replace(t1, user.(email := email));
    assert forall i :: 0 <= i < |s.users| ==> t1.users[i].id < s.nextId by {
      assert forall i :: 0 <= i < |s.users| ==> t1.users[i] == s.users[i];
    }
    assert t2.users == s.users + [user.(email := email)] by {
      assert forall i :: 0 <= i < |s.users| ==> t1.users[i] == s.users[i];
    }
    assert FindCall(t2, req.username, {}) == Some(user.(email := email)) by {
      Registration.FreshUserFound(s, u.(email := email));
      assert t2 == Insert(s, u.(email := email)).0.(socials := t1.socials, contacts := t1.contacts);
    }
  }
}

=== FILE: sign_in.dfy ===
/** The two sign-in handlers. Login (createUser.go) leaves the credential
    check to the store's username-or-email lookup; sign_in
    (authentication_api.go) compares the stored bcrypt hash itself. Neither
    writes to the store. The lookup's result is a parameter: how the store
    resolves the identifier is not part of this model. */
module SignIn {
  import opened Wrappers
  import opened Accounts
  import opened UserStore

  /** The response to a failed username-or-email lookup: an error with its own
      status keeps it, any other error becomes a 500. */
  function LookupFailure(e: LookupError): Response {
    match e
    case HttpError(status, message) => Response(status, Text(message))
    case OtherError => Response(StatusInternalServerError, CallError(Lookup))
  }

  /** Login exactly as written: after the token is minted, the user record
      for the response is fetched by the request's identifier taken as a
      username, even when the identifier was an email. */
  function Login(s: Store, req: Option<LoginRequest>, lookup: Result<User, LookupError>,
                 fails: set<Step>, svc: Services): (h: Handled)
    ensures h.store == s
    ensures req.None? ==> h.response == Response(StatusBadRequest, CallError(Bind))
    // a lookup error with its own status keeps status and message; any other is a 500
    ensures req.Some? && lookup.Failure? && lookup.error.HttpError? ==>
      h.response == Response(lookup.error.status, Text(lookup.error.message))
    ensures req.Some? && lookup == Failure(OtherError) ==>
      h.response == Response(StatusInternalServerError, CallError(Lookup))
    // after an accepted lookup, a failed token and a failed second lookup are 500s
    ensures req.Some? && lookup.Success?
            && svc.createToken(lookup.value.username, lookup.value.id, TokenLifetimeHours).None? ==>
      h.response == Response(StatusInternalServerError, Text(TokenFailed))
    ensures req.Some? && lookup.Success?
            && svc.createToken(lookup.value.username, lookup.value.id, TokenLifetimeHours).Some?
            && FindCall(s, req.value.usernameOrEmail, fails).None? ==>
      h.response == Response(StatusInternalServerError, CallError(FindUser))
    ensures h.response.body.Session? ==>
      && req.Some? && lookup.Success?
      && h.response.status == StatusOK
      && Some(h.response.body.token) == svc.createToken(lookup.value.username, lookup.value.id, TokenLifetimeHours)
      && h.response.body.user in s.users
      && h.response.body.user.username == req.value.usernameOrEmail
  {
    match req
    case None => Handled(Response(StatusBadRequest, CallError(Bind)), s)
    case Some(r) =>
      match lookup
      case Failure(e) => Handled(LookupFailure(e), s)
      case Success(user) =>
        match svc.createToken(user.username, user.id, TokenLifetimeHours)
        case None => Handled(Response(StatusInternalServerError, Text(TokenFailed)), s)
        case Some(token) =>
          match FindCall(s, r.usernameOrEmail, fails)
          case None => Handled(Response(StatusInternalServerError, CallError(FindUser)), s)
          case Some(found) => Handled(Response(StatusOK, Session("", token, found)), s)
  }

  /** Login with the second lookup keyed by the signed-in user's own username,
      so that the record returned is the one the token was minted for. */
  function LoginFixed(s: Store, req: Option<LoginRequest>, lookup: Result<User, LookupError>,
                      fails: set<Step>, svc: Services): (h: Handled)
    ensures h.store == s
    ensures req.None? ==> h.response == Response(StatusBadRequest, CallError(Bind))
    // a lookup error with its own status keeps status and message; any other is a 500
    ensures req.Some? && lookup.Failure? && lookup.error.HttpError? ==>
      h.response == Response(lookup.error.status, Text(lookup.error.message))
    ensures req.Some? && lookup == Failure(OtherError) ==>
      h.response == Response(StatusInternalServerError, CallError(Lookup))
    // after an accepted lookup, a failed token and a failed second lookup are 500s
    ensures req.Some? && lookup.Success?
            && svc.createToken(lookup.value.username, lookup.value.id, TokenLifetimeHours).None? ==>
      h.response == Response(StatusInternalServerError, Text(TokenFailed))
    ensures req.Some? && lookup.Success?
            && svc.createToken(lookup.value.username, lookup.value.id, TokenLifetimeHours).Some?
            && FindCall(s, lookup.value.username, fails).None? ==>
      h.response == Response(StatusInternalServerError, CallError(FindUser))
    ensures h.response.body.Session? ==>
      && req.Some? && lookup.Success?
      && h.response.status == StatusOK
      && Some(h.response.body.token) == svc.createToken(lookup.value.username, lookup.value.id, TokenLifetimeHours)
      && h.response.body.user in s.users
      && h.response.body.user.username == lookup.value.username
  {
    match req
    case None => Handled(Response(StatusBadRequest, CallError(Bind)), s)
    case Some(r) =>
      match lookup
      case Failure(e) => Handled(LookupFailure(e), s)
      case Success(user) =>
        match svc.createToken(user.username, user.id, TokenLifetimeHours)
        case None => Handled(Response(StatusInternalServerError, Text(TokenFailed)), s)
        case Some(token) =>
          match FindCall(s, user.username, fails)
          case None => Handled(Response(StatusInternalServerError, CallError(FindUser)), s)
          case Some(found) => Handled(Response(StatusOK, Session("", token, found)), s)
  }

  /** sign_in: lookup, then the bcrypt comparison, then the token. */
  function SignIn(s: Store, req: Option<LoginRequest>, lookup: Result<User, LookupError>, svc: Services): (h: Handled)
    ensures h.store == s
    ensures req.None? ==> h.response == Response(StatusBadRequest, CallError(Bind))
    // a lookup error with its own status keeps status and message; any other is a 500
    ensures req.Some? && lookup.Failure? && lookup.error.HttpError? ==>
      h.response == Response(lookup.error.status, Text(lookup.error.message))
    ensures req.Some? && lookup == Failure(OtherError) ==>
      h.response == Response(StatusInternalServerError, CallError(Lookup))
    // a password that does not match the stored hash is refused and no token is issued
    ensures req.Some? && lookup.Success? && !svc.compare(lookup.value.password, req.value.password) ==>
      h.response == Response(StatusUnauthorized, Text(InvalidCredentials))
    // a token that cannot be made after an accepted password is a 500, not a refusal
    ensures req.Some? && lookup.Success? && svc.compare(lookup.value.password, req.value.password)
            && svc.createTokenFor(lookup.value.id).None? ==>
      h.response == Response(StatusInternalServerError, Text(TokenFailed))
    // a token is issued only after both the lookup and the comparison succeed
    ensures h.response.body.Session? <==>
      && req.Some? && lookup.Success?
      && svc.compare(lookup.value.password, req.value.password)
      && svc.createTokenFor(lookup.value.id).Some?
    ensures h.response.body.Session? ==>
      h.response == Response(StatusOK, Session(LoggedIn, svc.createTokenFor(lookup.value.id).value, lookup.value))
  {
    match req
    case None => Handled(Response(StatusBadRequest, CallError(Bind)), s)
    case Some(r) =>
      match lookup
      case Failure(e) => Handled(LookupFailure(e), s)
      case Success(user) =>
        if !svc.compare(user.password, r.password) then
          Handled(Response(StatusUnauthorized, Text(InvalidCredentials)), s)
        else
          match svc.createTokenFor(user.id)
          case None => Handled(Response(StatusInternalServerError, Text(TokenFailed)), s)
          case Some(token) => Handled(Response(StatusOK, Session(LoggedIn, token, user)), s)
  }

  /** The lookup is faithful to the store: what it returns is a stored user
      whose username or email is the identifier. */
  ghost predicate LookupAgrees(s: Store, ident: string, lookup: Result<User, LookupError>) {
    lookup.Success? ==> lookup.value in s.users && (lookup.value.username == ident || lookup.value.email == ident)
  }

  /** As written, Login by email never succeeds when no user has that email
      as a username: the second lookup finds nobody and the answer is a 500,
      although the credentials were accepted and a token was minted. */
  lemma LoginByEmailFails(s: Store, req: LoginRequest, u: User, fails: set<Step>, svc: Services)
    requires req.usernameOrEmail == u.email && !UsernameTaken(s, u.email)
    ensures Login(s, Some(req), Success(u), fails, svc).response.status == StatusInternalServerError
  {
  }

  /** A concrete instance: the user registered as "ann1" / "ann@x.com" signs
      in by email. The lookup accepts the credentials and the token is minted,
      yet the answer is a 500; the corrected handler answers 200 with that
      user's record. */
  lemma LoginByEmailExample()
    ensures var ann := User(0, "Ann", "ann1", "secret123", "ann@x.com", "", "");
      var s := Store([ann], {0}, {0}, 1);
      var svc := Services(p => Some(p), (h, p) => h == p, (n, i, d) => Some("t"), i => Some("t"), t => None);
      var req := Some(LoginRequest("ann@x.com", "secret123"));
      && Login(s, req, Success(ann), {}, svc).response == Response(StatusInternalServerError, CallError(FindUser))
      && LoginFixed(s, req, Success(ann), {}, svc).response == Response(StatusOK, Session("", "t", ann))
  {
  }

  /** The corrected Login answers a well-formed store's faithful lookup with
      exactly the user the token was minted for, whether the identifier was a
      username or an email. */
  lemma LoginFixedReturnsSignedInUser(s: Store, req: LoginRequest, u: User, fails: set<Step>, svc: Services, token: Token)
    requires WellFormed(s) && LookupAgrees(s, req.usernameOrEmail, Success(u))
    requires svc.createToken(u.username, u.id, TokenLifetimeHours) == Some(token) && FindUser !in fails
    ensures LoginFixed(s, Some(req), Success(u), fails, svc).response == Response(StatusOK, Session("", token, u))
  {
  }

  /** A user registered through sign_up can sign in with the same password,
      given a lookup that returns that user and a hasher whose compare accepts the hash it
      produced for that password (a hypothesis, not a property of bcrypt
      proved here). */
  lemma SignInAcceptsRegisteredPassword(s: Store, req: LoginRequest, u: User, svc: Services, token: Token)
    requires svc.hash(req.password) == Some(u.password)
    requires forall p, h :: svc.hash(p) == Some(h) ==> svc.compare(h, p)
    requires svc.createTokenFor(u.id) == Some(token)
    ensures SignIn(s, Some(req), Success(u), svc).response == Response(StatusOK, Session(LoggedIn, token, u))
  {
  }

  /** Login by username, as written, succeeds on a well-formed store when the
      lookup returns a stored user with that username and no call fails: 200
      with the token minted for that user and that user's record. */
  lemma LoginByUsernameSucceeds(s: Store, req: LoginRequest, u: User, fails: set<Step>, svc: Services, token: Token)
    requires WellFormed(s) && u in s.users && req.usernameOrEmail == u.username
    requires svc.createToken(u.username, u.id, TokenLifetimeHours) == Some(token) && FindUser !in fails
    ensures Login(s, Some(req), Success(u), fails, svc) == Handled(Response(StatusOK, Session("", token, u)), s)
  {
    var k :| 0 <= k < |s.users| && s.users[k] == u;
    FindByUsernameUnique(s, k);
  }
}

=== FILE: socials.dfy ===
/** extractSocialURL: the URL of the first social entry of a given type. */
module Socials {

  /** One (platform, URL) pair of a profile request. */
  datatype SocialEntry = SocialEntry(kind: string, url: string)

  /** Scans the entries in order and returns the URL of the first one whose
      type is `kind`, or "" when no entry has that type. */
  method ExtractSocialUrl(entries: seq<SocialEntry>, kind: string) returns (url: string)
    ensures (forall i :: 0 <= i < |entries| ==> entries[i].kind != kind) ==> url == ""
    ensures (exists i :: 0 <= i < |entries| && entries[i].kind == kind) ==>
      exists i :: 0 <= i < |entries| && entries[i].kind == kind && url == entries[i].url
        && forall j :: 0 <= j < i ==> entries[j].kind != kind
  {
    var n := 0;
    while n < |entries|
      invariant 0 <= n <= |entries|
      invariant forall j :: 0 <= j < n ==> entries[j].kind != kind
    {
      if entries[n].kind == kind {
        return entries[n].url;
      }
      n := n + 1;
    }
    return "";
  }
}

=== FILE: user_store.dfy ===
/** The abstract user store: the queries and writes the handlers issue
    against it, and the well-formedness the handlers are meant to keep
    (distinct ids, and no two users sharing a username or an email). */
module UserStore {
  import opened Wrappers
  import opened Accounts

  /** CheckUserByEmail: some stored user has exactly this email. */
  predicate EmailTaken(s: Store, email: string) {
    exists i :: 0 <= i < |s.users| && s.users[i].email == email
  }

  /** CheckUserByUsername: some stored user has exactly this username. */
  predicate UsernameTaken(s: Store, username: string) {
    exists i :: 0 <= i < |s.users| && s.users[i].username == username
  }

  /** Position of the first user with the given username. */
  function FindIndex(users: seq<User>, username: string): (r: Option<nat>)
    ensures r.Some? ==> r.value < |users| && users[r.value].username == username
    ensures r.Some? ==> forall j :: 0 <= j < r.value ==> users[j].username != username
    ensures r.None? ==> forall j :: 0 <= j < |users| ==> users[j].username != username
  {
    if |users| == 0 then None
    else if users[0].username == username then Some(0)
    else match FindIndex(users[1..], username)
      case None => None
      case Some(k) => Some(k + 1)
  }

  /** FindUserByUsername when the call itself does not fail: the stored user
      with that username, or nothing. */
  function FindByUsername(s: Store, username: string): (r: Option<User>)
    ensures r.Some? <==> UsernameTaken(s, username)
    ensures r.Some? ==> r.value in s.users && r.value.username == username
  {
    match FindIndex(s.users, username)
    case None => None
    case Some(k) => Some(s.users[k])
  }

  /** FindUserByUsername as the handlers call it: a failing call and a
      missing user are both an error of that call. */
  function FindCall(s: Store, username: string, fails: set<Step>): (r: Option<User>)
    ensures r.Some? <==> FindUser !in fails && UsernameTaken(s, username)
    ensures r.Some? ==> r.value in s.users && r.value.username == username
  {
    if FindUser in fails then None else FindByUsername(s, username)
  }

  /** CreateUser: stores the record under the next identifier and returns that identifier. */
  function Insert(s: Store, u: User): (r: (Store, UserId)) {
    (s.(users := s.users + [u.(id := s.nextId)], nextId := s.nextId + 1), s.nextId)
  }

  /** CreateSocials: an (empty) Socials row owned by `id`. */
  function AddSocials(s: Store, id: UserId): (t: Store) {
    s.(socials := s.socials + {id})
  }

  /** CreateContact: an (empty) Contact row owned by `id`. */
  function AddContact(s: Store, id: UserId): (t: Store) {
    s.(contacts := s.contacts + {id})
  }

  /** UpdateUserProfile: the stored record with the same id is replaced by `u`. */
  function Replace(s: Store, u: User): (t: Store) {
    s.(users := seq(|s.users|, i requires 0 <= i < |s.users| =>
                      if s.users[i].id == u.id then u else s.users[i]))
  }

  /** Every stored id was handed out before `nextId`. */
  ghost predicate IdsIssued(s: Store) {
    forall i :: 0 <= i < |s.users| ==> s.users[i].id < s.nextId
  }

  /** No two stored users share an id. */
  ghost predicate IdsDistinct(s: Store) {
    forall i, j :: 0 <= i < j < |s.users| ==> s.users[i].id != s.users[j].id
  }

  /** No two stored users share a username or an email. */
  ghost predicate UniqueIdentities(s: Store) {
    forall i, j :: 0 <= i < j < |s.users| ==>
      s.users[i].username != s.users[j].username && s.users[i].email != s.users[j].email
  }

  ghost predicate WellFormed(s: Store) {
    IdsIssued(s) && IdsDistinct(s) && UniqueIdentities(s)
  }

  /** Under unique usernames, the lookup by username finds exactly the user
      at any position holding that username. */
  lemma FindByUsernameUnique(s: Store, k: nat)
    requires UniqueIdentities(s)
    requires k < |s.users|
    ensures FindByUsername(s, s.users[k].username) == Some(s.users[k])
  {
  }

  /** Inserting a user whose username and email are both free keeps the store well formed. */
  lemma InsertKeepsWellFormed(s: Store, u: User)
    requires WellFormed(s)
    requires !EmailTaken(s, u.email) && !UsernameTaken(s, u.username)
    ensures WellFormed(Insert(s, u).0)
    ensures Insert(s, u).1 !in set v | v in s.users :: v.id
  {
  }

  /** Replacing the record at position `k` by one with the same id keeps the
      store well formed, provided each of its username and email is either the
      old one or free in the store. */
  lemma ReplaceKeepsWellFormed(s: Store, k: nat, u: User)
    requires WellFormed(s)
    requires k < |s.users| && u.id == s.users[k].id
    requires u.username == s.users[k].username || !UsernameTaken(s, u.username)
    requires u.email == s.users[k].email || !EmailTaken(s, u.email)
    ensures WellFormed(Replace(s, u))
  {
  }
}

=== FILE: wrappers.dfy ===
/** Failure-carrying wrappers used throughout the account model. */
module Wrappers {

  /** A value that may be absent. */
  datatype Option<+T> = None | Some(value: T)

  /** A value or the error that replaced it. */
  datatype Result<+T, +E> = Success(value: T) | Failure(error: E)
}
